=== FILE: README.md ===
# Donation site core, modelled in Dafny

This project models the logic layer of a small donation-campaign website.
The site has a public gallery of relief projects, each with a progress bar.
It has a donation dialog that leads to bank-transfer instructions. It also
has an admin panel, behind a password gate, where projects are created,
edited and deleted. The model covers the site's state and handlers:

- the **project store** held by the application root (`types.ts`, `App.tsx`):
  add puts the new record first, update replaces by id, delete filters out by
  id. Also the four initial projects and the invariant every reachable store
  keeps: positive goal, `0 <= currentAmount <= goal`, an image, distinct ids;
- the **view mode** state machine (`App.tsx`): public view, gate, admin panel;
- the **admin gate** (`components/PasswordModal.tsx`);
- the **project form** (`components/ProjectForm.tsx`): prefill and reset,
  per-field changes, the image from a file, and the ordered validation
  (first failure wins) that is the only guard in front of the store;
- the **admin panel** (`components/AdminDashboard.tsx`): add, edit, submit,
  cancel, confirmed delete, and the table's progress width;
- the **donation dialog** (`components/DonationModal.tsx`): two steps, custom
  entry over preset, validation, reset on close, one shared "copied" mark;
- the **progress percentage** (`components/ProgressBar.tsx`).

Each component file is one module (`PasswordModal`, `ProjectForm`,
`AdminDashboard`, `DonationModal`, `ProgressBar`), `types.ts` is `Types`, and
the root `App.tsx` is split in two: its project list is `ProjectStore` and
its view flags are `ViewMode`. Every handler is a pure function from the component's state
to its next state. A handler that calls into the store returns the call as
a `Mutation` value, and the root performs it with `Apply`.

External inputs are parameters:
- the clock-derived id of a new project is `freshId`;
- `Number(...)` is a function `string -> real`;
- `parseFloat` is `string -> Option<real>`, where `None` stands for NaN;
- `window.confirm` is a boolean;
- the result a `FileReader` produces is a string; a failed read, whose result
  is `null`, is the empty string, which the image check and the preview
  treat the same way.

Amounts are Dafny `real`s.

The model follows the code in these places:
- Proceeding in the donation dialog checks only "not NaN and above zero".
  A parsed `Infinity` would pass. The model has no infinity.
- `handleClose` itself resets only the step. The other fields return to their
  initial values because the root drops the selected project, which unmounts
  the dialog. `Dispatch` models a close as both.
- The two copy buttons share one "copied" mark rather than one mark each.
- An edit whose project id is the empty string is treated as an add, because
  the panel tests the id for truthiness. `HandleFormSubmit` states this.
  No store record ever has an empty id.

## Model

| member | source | states |
|---|---|---|
| `Types.WithId` | App.tsx:62-65 | `{ ...data, id }` has the given id and exactly the fields of `data` |
| `Types.WithIdDataOf` | types.ts:8-16 | a project is its id plus its data: splitting and rejoining gives it back |
| `ProjectStore.AddProject` | App.tsx:61-67 | add grows the list by one, the new record is first with the given id and the given data, and the old records follow in their order |
| `ProjectStore.UpdateProject` | App.tsx:69-71 | update keeps the length and the id at every position, gives every matching record the new data, and leaves every other record untouched |
| `ProjectStore.DeleteProject` | App.tsx:73-75 | delete keeps exactly the records whose id differs, and the length drops by the number of records with that id |
| `ProjectStore.UpdateAbsentIsNoOp` | App.tsx:70 | updating an id nobody carries returns the list unchanged |
| `ProjectStore.UpdateWithOwnDataIsNoOp` | App.tsx:70 | with distinct ids, saving a record's own data under its own id changes nothing |
| `ProjectStore.DeleteAbsentIsNoOp` | App.tsx:74 | deleting an id nobody carries returns the list unchanged |
| `ProjectStore.DeleteRemovesId` | App.tsx:74 | after a delete no record carries the id |
| `ProjectStore.DeleteIdempotent` | App.tsx:74 | deleting twice equals deleting once |
| `ProjectStore.DeleteDistributes` | App.tsx:74 | delete acts on each part of a concatenation separately, so kept records keep their relative order |
| `ProjectStore.DistinctCountAtMostOne` | App.tsx:73-75 | in a store with distinct ids an id is carried once or not at all |
| `ProjectStore.DeletePresentShrinksByOne` | App.tsx:73-75 | with distinct ids, deleting a present id removes exactly one record |
| `ProjectStore.DeleteUndoesAdd` | App.tsx:61-75 | deleting the id just added with a fresh id restores the previous list |
| `ProjectStore.InitialProjectsSatisfyInvariant` | App.tsx:16-53 | the four initial projects are valid and have distinct ids |
| `ProjectStore.AddKeepsInvariant` | App.tsx:61-67 | adding valid data under a fresh id keeps validity and distinct ids |
| `ProjectStore.UpdateKeepsInvariant` | App.tsx:69-71 | updating with valid data keeps validity and distinct ids |
| `ProjectStore.DeleteKeepsInvariant` | App.tsx:73-75 | deleting keeps validity and distinct ids |
| `ProjectStore.Apply` | App.tsx:61-75 | a mutation value runs the matching store operation: add prepends the data under the fresh id before the old list; update keeps the ids, gives every matching record the data and leaves the others untouched; delete keeps exactly the records with another id |
| `ProjectStore.ApplyKeepsInvariant` | App.tsx:61-75 | every admissible mutation keeps the store invariant |
| `ProjectStore.ApplyLength` | App.tsx:61-75 | with distinct ids the length changes by +1 for add, 0 for update, -1 for delete of a present id and 0 for an absent one |
| `ViewMode.HandleToggleView` | App.tsx:77-83 | the toggle never yields admin; from admin it returns to public, from public it shows the gate |
| `ViewMode.HandleLoginSuccess` | App.tsx:85-88 | login success sets admin and hides the gate |
| `ViewMode.ClosePasswordModal` | App.tsx:125 | closing the gate hides it and leaves the view as it was |
| `ViewMode.ToggleNeverGrantsAdmin` | App.tsx:77-83 | from any session the toggle leaves the admin view off, and from public it opens the gate |
| `ViewMode.Step` | App.tsx:122-127 | gate events do nothing while the gate is hidden; submitting the visible gate with the secret turns admin on and hides the gate; close hides it and keeps the view; a step that turns admin on is such a submit, and a step that hides the gate leaves it in its initial state |
| `ViewMode.SecretOpensPanel` | App.tsx:77-127 | from a fresh page, toggle, typing the secret and submitting reaches the admin view with the gate closed |
| `ViewMode.AdminRequiresPassword` | App.tsx:77-88 | in any run of user actions the admin view is reached only by a gate submit made while the input held the secret |
| `ViewMode.HiddenGateIsFresh` | App.tsx:122-127 | whenever the gate is hidden its state is initial, so each opening starts with an empty input and no error |
| `PasswordModal.TypePassword` | components/PasswordModal.tsx:42 | typing sets the input and leaves the error |
| `PasswordModal.HandleSubmit` | components/PasswordModal.tsx:14-23 | success exactly when the input equals the secret, which clears the error; otherwise the error is set and the input cleared |
| `PasswordModal.EmptyInputNeverSucceeds` | components/PasswordModal.tsx:8-16 | an empty input never succeeds |
| `PasswordModal.OutcomeDependsOnlyOnInput` | components/PasswordModal.tsx:11-23 | two gates with the same input get the same outcome: there is no attempt counter |
| `PasswordModal.RetryAfterFailuresSucceeds` | components/PasswordModal.tsx:11-23 | from any gate state, whatever earlier attempts left, typing the secret and submitting succeeds |
| `PasswordModal.SubmitEach` | components/PasswordModal.tsx:19-21 | a non-empty run of wrong attempts ends with an empty input and the error shown |
| `PasswordModal.SecretAfterWrongAttempts` | components/PasswordModal.tsx:14-23 | after a run of wrong attempts the gate shows the error, and typing the secret then succeeds and clears it |
| `ProjectForm.Prefill` | components/ProjectForm.tsx:26-50 | editing copies all six non-id fields of the project; creating resets to the blank form (goal 5000000, amount 0, empty texts and image, default bank name) |
| `ProjectForm.HandleSubmit` | components/ProjectForm.tsx:79-98 | data is submitted exactly when it is valid, unchanged and with the edited project's id (none when creating); each alert fires exactly when its check is the first to fail in the order goal, negative amount, amount over goal, image |
| `ProjectForm.BlankFormNeedsOnlyAnImage` | components/ProjectForm.tsx:37-48 | the blank form fails only the image check, and passes once an image is set |
| `ProjectForm.EditUnchangedResubmits` | components/ProjectForm.tsx:27-35 | saving a valid project's prefilled form unchanged submits its own data under its own id |
| `ProjectForm.FieldNamed` | components/ProjectForm.tsx:54-64 | (row for the choice the change handler makes) a `bankAccount.` name writes the bank field named by the segment after the first dot, any other name the top-level field of that name |
| `ProjectForm.FieldNamedMatchesInputName` | components/ProjectForm.tsx:54-64 | a name selects a field only if it starts with that field's input name, and outside the bank prefix only if it is exactly that name |
| `ProjectForm.BeforeDot` | components/ProjectForm.tsx:55 | the segment taken is a dot-free prefix ending at the first dot |
| `ProjectForm.FieldNamedInvertsNameOf` | components/ProjectForm.tsx:54-64 | each input's name leads back to the field it is bound to, the bank ones through the `bankAccount.` prefix |
| `ProjectForm.HandleChange` | components/ProjectForm.tsx:52-66 | a change writes only the field its name selects, amounts as numbers; a name with no field changes nothing |
| `ProjectForm.ChangeTouchesOnlyItsField` | components/ProjectForm.tsx:52-66 | a change through a field's input writes that field and leaves every other field, bank fields included, as it was |
| `ProjectForm.HandleFileChange` | components/ProjectForm.tsx:68-77 | a completed read replaces the image and nothing else, a failed one with the empty value; no file, no change |
| `ProjectForm.FailedReadBlocksSubmit` | components/ProjectForm.tsx:72-73 | a failed read wipes the image, so the form is refused (by the image alert once the numbers pass) until another file loads |
| `ProjectForm.LoadedImageSubmits` | components/ProjectForm.tsx:68-98 | after a successful read a form whose numbers pass is submitted, carrying the loaded image and otherwise its own data |
| `AdminDashboard.HandleAddNew` | components/AdminDashboard.tsx:16-19 | add-new shows the form with nothing to edit, so the form is blank |
| `AdminDashboard.HandleEdit` | components/AdminDashboard.tsx:21-24 | edit shows the form for the project, prefilled with its data |
| `AdminDashboard.HandleFormSubmit` | components/AdminDashboard.tsx:26-34 | a present non-empty id calls update and never add; otherwise add and never update; either way back to list mode with nothing edited |
| `AdminDashboard.HandleCancel` | components/AdminDashboard.tsx:36-39 | cancel returns to list mode and calls no store operation |
| `AdminDashboard.HandleDelete` | components/AdminDashboard.tsx:87 | delete is called, with the row's id, exactly when the confirmation answers yes |
| `AdminDashboard.SubmitForm` | components/AdminDashboard.tsx:26-34 | the form reaches the store exactly when its data is valid: invalid data changes nothing; valid data is handed over unchanged and the panel returns to list mode, as an update of the edited id when that id is non-empty and as an add otherwise |
| `AdminDashboard.Perform` | App.tsx:95-100 | no call leaves the store as it is |
| `AdminDashboard.SubmitKeepsStoreInvariant` | components/ProjectForm.tsx:81-97 | any form submission keeps the store invariant, given a fresh id for an add |
| `AdminDashboard.Act` | components/AdminDashboard.tsx:44-90 | a button runs its handler only while it is on screen (add and the row buttons in list mode, for rows of the table; submit and cancel in form mode), otherwise nothing happens; an on-screen add opens a blank form, edit opens the row's form, cancel returns to the list, delete calls the store exactly when confirmed, and a submit of valid data calls it and returns to the list; only a submit or a confirmed delete of a listed row calls the store, and an add or update carries valid data |
| `AdminDashboard.RunPanel` | components/AdminDashboard.tsx:44-90 | the store after a run of button presses; a run with no submit and no confirmed delete leaves the store as it was |
| `AdminDashboard.AddThenSubmitAdds` | components/AdminDashboard.tsx:26-34 | add-new then a submit of valid data adds the project first under the submit's fresh id |
| `AdminDashboard.EditThenSubmitUpdates` | components/AdminDashboard.tsx:21-34 | editing a listed row with a non-empty id and submitting valid data updates that id |
| `AdminDashboard.ConfirmedDeleteRemoves` | components/AdminDashboard.tsx:87 | a confirmed delete of a listed row removes its id from the store |
| `AdminDashboard.RunPanelKeepsStoreInvariant` | components/AdminDashboard.tsx:16-39 | any run of panel actions, each add under a distinct fresh id, keeps the store invariant |
| `AdminDashboard.TableWidth` | components/AdminDashboard.tsx:82 | the table width is at most 100, equals the progress bar's percentage whenever the goal is positive, and is None (NaN or -Infinity, both ignored as a width) exactly for a zero goal with nothing positive collected |
| `AdminDashboard.TableAgreesWithCards` | components/AdminDashboard.tsx:82 | for every stored project the table and the card show the same percentage |
| `AdminDashboard.CreateFundDeleteScenario` | App.tsx:61-75 | creating a project with goal 1000 puts it first at 0%, editing it to 500 keeps it first at 50%, deleting it restores the previous store |
| `ProgressBar.Percentage` | components/ProgressBar.tsx:9 | at most 100; 0 for a non-positive goal; non-negative for a non-negative amount; exactly 100 once the goal is reached; `current * 100 / goal` in between |
| `ProgressBar.PercentageMonotone` | components/ProgressBar.tsx:9 | for a fixed positive goal the percentage never decreases as the amount grows |
| `ProgressBar.PercentageOfShare` | components/ProgressBar.tsx:9 | an amount of k percent of the goal shows k |
| `DonationModal.HandleProceed` | components/DonationModal.tsx:31-39 | the error is cleared exactly when the resolved amount is a number above zero, and then the step moves to the instructions; otherwise the step stays and the error message is set; no field but the error and the step changes |
| `DonationModal.HandleAmountClick` | components/DonationModal.tsx:41-44 | after choosing a preset the resolved amount is that preset |
| `DonationModal.HandleCustomAmountChange` | components/DonationModal.tsx:46-51 | the entry is stored; a non-empty entry sets the preset amount to 0, an empty one leaves it |
| `DonationModal.HandleClose` | components/DonationModal.tsx:53-56 | close returns to the amount step and changes no other field |
| `DonationModal.ResetOnNullProject` | components/DonationModal.tsx:10-24 | all five fields return to the values their state hooks start with, from which proceeding succeeds |
| `DonationModal.HandleCopy` | components/DonationModal.tsx:58-62 | copy moves the single shared mark to the copied field and changes nothing else |
| `DonationModal.CopyTimeout` | components/DonationModal.tsx:61 | the timer clears the mark and changes nothing else |
| `DonationModal.CustomEntryBeatsPreset` | components/DonationModal.tsx:64 | a non-empty entry decides the amount whatever preset was chosen |
| `DonationModal.ProceedAfterPresetSucceeds` | components/DonationModal.tsx:29 | every preset is positive, so proceeding right after choosing one succeeds |
| `DonationModal.ProceedFromInitialSucceeds` | components/DonationModal.tsx:10-13 | the initial amount 10000 lets an immediate proceed succeed |
| `DonationModal.ErasedEntryLeavesNoAmount` | components/DonationModal.tsx:46-51 | typing an entry and erasing it leaves amount 0, so proceeding shows the error |
| `DonationModal.CopyMovesTheMark` | components/DonationModal.tsx:14 | copying the other field takes the mark away from the first |
| `DonationModal.FinalAmount` | components/DonationModal.tsx:32 | (row for the amount proceed checks, the same expression the instructions show at line 64) the parsed entry when there is one, else the chosen preset |
| `DonationModal.Dispatch` | components/DonationModal.tsx:76-155 | each event acts only on the step where its button exists; a close is `handleClose` plus the unmount the root causes (App.tsx:116-121), so it yields the initial state; the instructions step is entered by an accepted proceed and only by one, and its amount stays fixed until close; copy does nothing on the amount step |
| `DonationModal.ProceedReachesInstructions` | components/DonationModal.tsx:31-39 | proceeding from a freshly opened dialog reaches the instructions step with no error |
| `DonationModal.InstructionsShowAcceptableAmount` | components/DonationModal.tsx:31-38 | in any run of the dialog, the instructions step always shows an amount above zero and no error |
| `DonationModal.CopyMarkOnlyOnInstructions` | components/DonationModal.tsx:58-62 | in any run of the dialog the copied mark appears only on the instructions step |

## Left out

- Rendering, styling, icons, `toLocaleString`/`toFixed` formatting and the
  alert and label texts: presentation only.
- The description generator (services/geminiService.ts) is not part of this
  model. It is a network call through a library that is not shown.
- Header, footer and project card are not part of this model: they are
  presentation. The header expects a `setIsAdminView` prop, but the root
  passes `onToggleView` (App.tsx:92). The header's button calls
  `setIsAdminView` (components/Header.tsx:21), which is undefined, so in the
  site as shipped the toggle throws, and neither the gate nor the panel can
  be reached. The view toggle is modelled from the root's handlers, as the
  root intends it.
- Selecting a project in the gallery (the root's `selectedProject`) is not
  modelled beyond mounting the donation dialog.
- Id generation from the clock: the id is a parameter, and uniqueness is a
  precondition of the invariant lemmas (`freshId` not already in the store).
- Floating point: amounts are exact reals, so rounding, NaN and infinities are
  not modelled. The exceptions are the parse result of the donation entry and
  the table width over a zero goal. A NaN goal or amount in the form would
  pass every check, because comparisons with NaN are false. The model cannot
  express that case.
- `ProjectForm.HandleChange`: an input name with no matching record field
  adds an extra key to the form data in the site. A bare `bankAccount` name
  would replace the bank record with a string. The model leaves the record
  unchanged in both cases. No input of the form carries such a name.
- The clipboard write, `window.confirm`, `alert` and `FileReader` are inputs
  or are left out. Each timer of the two-second copy reset is an explicit
  `CopyTimerFires` event. An earlier timer can therefore clear a later
  copy's mark early.
- The plaintext password is not a security property. The secret is part of
  the page sent to every visitor.
- The HTML `required` and `min` attributes of the form inputs are browser
  behaviour and are not modelled.
- The donation dialog's runs start from its initial state, as each mount
  does.

=== FILE: dashboard.dfy ===
/** The admin panel (components/AdminDashboard.tsx): a list mode showing the
    store as a table, and a form mode for creating or editing one project.
    Each handler yields the panel's next state and, possibly, the store
    mutation it asks the application root to perform. */
module AdminDashboard {
  import opened Types
  import opened ProjectStore
  import ProjectForm
  import ProgressBar

  datatype DashboardState = DashboardState(isFormVisible: bool, projectToEdit: Option<Project>)

  /** List mode with nothing being edited: how the panel opens, and where every
      submit and cancel returns. */
  const ListMode: DashboardState := DashboardState(false, None)

  /** The panel's next state and the store call made, if any. */
  datatype Outcome = Outcome(state: DashboardState, call: Option<Mutation>)

  /** `handleAddNew`: an empty form for a new project. */
  function HandleAddNew(st: DashboardState): (r: DashboardState)
    ensures r.isFormVisible && r.projectToEdit.None?
    ensures ProjectForm.Prefill(r.projectToEdit) == ProjectForm.BlankForm
  {
    DashboardState(true, None)
  }

  /** `handleEdit`: the form, prefilled from `p`. */
  function HandleEdit(st: DashboardState, p: Project): (r: DashboardState)
    ensures r.isFormVisible && r.projectToEdit == Some(p)
    ensures WithId(ProjectForm.Prefill(r.projectToEdit), p.id) == p
  {
    DashboardState(true, Some(p))
  }

  /** `handleFormSubmit`: an id that is present and non-empty means update,
      anything else means add; either way the panel returns to list mode. */
  function HandleFormSubmit(st: DashboardState, data: ProjectData, id: Option<string>): (r: Outcome)
    ensures r.state == ListMode
    ensures id.Some? && id.value != "" ==> r.call == Some(Update(id.value, data))
    ensures id.None? || id.value == "" ==> r.call == Some(Add(data))
  {
    var call := if id.Some? && id.value != "" then Update(id.value, data) else Add(data);
    Outcome(ListMode, Some(call))
  }

  /** `handleCancel`: back to list mode, the store untouched. */
  function HandleCancel(st: DashboardState): (r: Outcome)
    ensures r.state == ListMode && r.call.None?
  {
    Outcome(ListMode, None)
  }

  /** The delete button: the store is asked to delete only when the
      confirmation dialog answers yes. */
  function HandleDelete(st: DashboardState, p: Project, confirmed: bool): (r: Outcome)
    ensures r.state == st
    ensures r.call.Some? <==> confirmed
    ensures r.call.Some? ==> r.call.value == Delete(p.id)
  {
    Outcome(st, if confirmed then Some(Delete(p.id)) else None)
  }

  /** The form's submit button while the panel is in state `st`: the form
      validates, then hands its data and the edited id to `handleFormSubmit`. */
  function SubmitForm(st: DashboardState, form: ProjectData): (r: Outcome)
    ensures r.call.Some? ==> ValidData(form)
    ensures !ValidData(form) ==> r == Outcome(st, None)
    ensures ValidData(form) ==> r.state == ListMode && r.call.Some? && !r.call.value.Delete? && r.call.value.data == form
    ensures ValidData(form) ==>
      (r.call.value.Update? <==> st.projectToEdit.Some? && st.projectToEdit.value.id != "")
    ensures ValidData(form) && r.call.value.Update? ==> r.call.value.id == st.projectToEdit.value.id
  {
    match ProjectForm.HandleSubmit(form, st.projectToEdit)
    case Rejected(_) => Outcome(st, None)
    case Submitted(data, id) => HandleFormSubmit(st, data, id)
  }

  /** The application root performing the call, with `freshId` as the
      clock-derived id of an added project. */
  function Perform(s: seq<Project>, call: Option<Mutation>, freshId: string): (r: seq<Project>)
    ensures call.None? ==> r == s
  {
    match call
    case Some(m) => Apply(s, m, freshId)
    case None => s
  }

  // ---------------------------------------------------------------------
  // What the panel guarantees of the store
  // ---------------------------------------------------------------------

  /** Submitting the form can only ever add or update a record with data that
      passed validation, so the store invariant survives every submit, given a
      fresh id for an add. */
  lemma SubmitKeepsStoreInvariant(s: seq<Project>, st: DashboardState, form: ProjectData, freshId: string)
    requires StoreInvariant(s) && !HasId(s, freshId)
    ensures StoreInvariant(Perform(s, SubmitForm(st, form).call, freshId))
  {
    var out := SubmitForm(st, form);
    if out.call.Some? {
      ApplyKeepsInvariant(s, out.call.value, freshId);
    }
  }

  /** Every button of the panel: add, and each row's edit and delete, in list
      mode; submit and cancel in form mode. The form's content at submit time
      is arbitrary. */
  datatype PanelAction = AddNew | Edit(p: Project) | Submit(form: ProjectData) | Cancel | DeleteRow(p: Project, confirmed: bool)

  /** Whether the action's button is on screen: list-mode buttons while the
      form is hidden (the row buttons only for a row of the table, which
      lists `rows`), form buttons while it is shown. */
  predicate OnScreen(rows: seq<Project>, st: DashboardState, a: PanelAction) {
    match a
    case AddNew => !st.isFormVisible
    case Edit(p) => !st.isFormVisible && p in rows
    case DeleteRow(p, _) => !st.isFormVisible && p in rows
    case Submit(_) => st.isFormVisible
    case Cancel => st.isFormVisible
  }

  /** One button press while the table lists `rows`; a button that is not on
      screen cannot be pressed, so the action does nothing. Only a submit or a
      confirmed delete reaches the store, and whatever a submit hands over has
      passed validation. */
  function Act(rows: seq<Project>, st: DashboardState, a: PanelAction): (r: Outcome)
    ensures !OnScreen(rows, st, a) ==> r == Outcome(st, None)
    ensures r.call.Some? ==> OnScreen(rows, st, a) && (a.Submit? || (a.DeleteRow? && a.confirmed))
    ensures r.call.Some? && r.call.value.Delete? ==> a.DeleteRow? && a.p in rows && r.call.value.id == a.p.id
    ensures r.call.Some? && !r.call.value.Delete? ==> ValidData(r.call.value.data)
    ensures OnScreen(rows, st, a) && a.AddNew? ==> r.state.isFormVisible && r.state.projectToEdit.None? && r.call.None?
    ensures OnScreen(rows, st, a) && a.Edit? ==> r.state == DashboardState(true, Some(a.p)) && r.call.None?
    ensures OnScreen(rows, st, a) && a.Cancel? ==> r.state == ListMode && r.call.None?
    ensures OnScreen(rows, st, a) && a.DeleteRow? ==> r.state == st && (r.call.Some? <==> a.confirmed)
    ensures OnScreen(rows, st, a) && a.Submit? && ValidData(a.form) ==> r.state == ListMode && r.call.Some?
  {
    if !OnScreen(rows, st, a) then Outcome(st, None)
    else
      match a
      case AddNew => Outcome(HandleAddNew(st), None)
      case Edit(p) => Outcome(HandleEdit(st, p), None)
      case Submit(form) => SubmitForm(st, form)
      case Cancel => HandleCancel(st)
      case DeleteRow(p, confirmed) => HandleDelete(st, p, confirmed)
  }

  /** The store after a run of panel actions; `freshIds[k]` is the id the
      clock gives an add made by the k-th action. Opening, editing, cancelling
      and declined deletes never change the store. */
  function RunPanel(s: seq<Project>, st: DashboardState, actions: seq<PanelAction>, freshIds: seq<string>): (r: seq<Project>)
    requires |freshIds| == |actions|
    ensures (forall k :: 0 <= k < |actions| ==> !actions[k].Submit? && !(actions[k].DeleteRow? && actions[k].confirmed)) ==> r == s
    decreases |actions|
  {
    if actions == [] then s
    else
      var out := Act(s, st, actions[0]);
      RunPanel(Perform(s, out.call, freshIds[0]), out.state, actions[1..], freshIds[1..])
  }

  /** Add-new followed by a submit of valid data adds the project under the
      id the clock gives the submit. */
  lemma AddThenSubmitAdds(s: seq<Project>, f: ProjectData, x: string, y: string)
    requires ValidData(f)
    ensures RunPanel(s, ListMode, [AddNew, Submit(f)], [x, y]) == AddProject(s, f, y)
  {
    var actions := [AddNew, Submit(f)];
    var ids := [x, y];
    var st1 := HandleAddNew(ListMode);
    assert actions[1..] == [Submit(f)] && ids[1..] == [y];
    assert RunPanel(s, st1, [Submit(f)], [y]) == AddProject(s, f, y) by {
      assert [Submit(f)][1..] == [] && [y][1..] == [];
    }
  }

  /** Edit of a listed row followed by a submit of valid data updates that
      row's id, when the id is non-empty. */
  lemma EditThenSubmitUpdates(s: seq<Project>, p: Project, f: ProjectData, x: string, y: string)
    requires p in s && p.id != "" && ValidData(f)
    ensures RunPanel(s, ListMode, [Edit(p), Submit(f)], [x, y]) == UpdateProject(s, p.id, f)
  {
    var actions := [Edit(p), Submit(f)];
    var ids := [x, y];
    var st1 := HandleEdit(ListMode, p);
    assert actions[1..] == [Submit(f)] && ids[1..] == [y];
    assert RunPanel(s, st1, [Submit(f)], [y]) == UpdateProject(s, p.id, f) by {
      assert [Submit(f)][1..] == [] && [y][1..] == [];
    }
  }

  /** A confirmed delete of a listed row removes its id from the store. */
  lemma ConfirmedDeleteRemoves(s: seq<Project>, p: Project, x: string)
    requires p in s
    ensures RunPanel(s, ListMode, [DeleteRow(p, true)], [x]) == DeleteProject(s, p.id)
  {
    assert [DeleteRow(p, true)][1..] == [] && [x][1..] == [];
  }

  /** Any run of panel actions, starting from a store that satisfies the
      invariant and with each add given an id the store does not hold yet,
      ends in a store that still satisfies it. */
  lemma {:induction false} RunPanelKeepsStoreInvariant(
    s: seq<Project>, st: DashboardState, actions: seq<PanelAction>, freshIds: seq<string>)
    requires |freshIds| == |actions|
    requires StoreInvariant(s)
    requires forall k :: 0 <= k < |freshIds| ==> !HasId(s, freshIds[k])
    requires forall k, l :: 0 <= k < l < |freshIds| ==> freshIds[k] != freshIds[l]
    ensures StoreInvariant(RunPanel(s, st, actions, freshIds))
    decreases |actions|
  {
    if actions != [] {
      var out := Act(s, st, actions[0]);
      var s' := Perform(s, out.call, freshIds[0]);
      if out.call.Some? {
        ApplyKeepsInvariant(s, out.call.value, freshIds[0]);
      }
      forall k | 0 <= k < |freshIds[1..]|
        ensures !HasId(s', freshIds[1..][k])
      {
        var id := freshIds[k + 1];
        assert id != freshIds[0];
        NoNewIdsExceptFresh(s, out.call, freshIds[0], id);
      }
      RunPanelKeepsStoreInvariant(s', out.state, actions[1..], freshIds[1..]);
    }
  }

  /** A performed call adds no id other than the fresh one. */
  lemma NoNewIdsExceptFresh(s: seq<Project>, call: Option<Mutation>, freshId: string, id: string)
    requires !HasId(s, id) && id != freshId
    ensures !HasId(Perform(s, call, freshId), id)
  {
    var r := Perform(s, call, freshId);
    if call.Some? {
      forall i | 0 <= i < |r|
        ensures r[i].id != id
      {
        match call.value
        case Add(_) =>
          if i > 0 {
            assert r[i] == s[i - 1];
          }
        case Update(_, _) =>
        case Delete(_) =>
          assert r[i] in r;
          assert r[i] in s;
      }
    }
  }

  // ---------------------------------------------------------------------
  // The table's progress column
  // ---------------------------------------------------------------------

  /** `Math.min(100, (currentAmount / goal) * 100)` as a JavaScript number.
      None: the value is NaN (0/0) or -Infinity (negative/0), which the
      browser ignores as a width. A positive amount over a zero goal is
      +Infinity, which the minimum caps at 100. */
  function TableWidth(current: real, goal: real): (r: Option<real>)
    ensures goal > 0.0 ==> r == Some(ProgressBar.Percentage(current, goal))
    ensures r.Some? ==> r.value <= 100.0
    ensures r.None? <==> goal == 0.0 && current <= 0.0
  {
    if goal != 0.0 then Some(ProgressBar.Min(100.0, (current / goal) * 100.0))
    else if current > 0.0 then Some(100.0)
    else None
  }

  /** For every stored project the table and the public card show the same
      percentage. */
  lemma TableAgreesWithCards(s: seq<Project>, i: nat)
    requires AllValid(s) && i < |s|
    ensures TableWidth(s[i].currentAmount, s[i].goal) == Some(ProgressBar.Percentage(s[i].currentAmount, s[i].goal))
  {
    assert ValidProject(s[i]);
  }

  // ---------------------------------------------------------------------
  // A whole session: create, fund half, delete
  // ---------------------------------------------------------------------

  /** Create a project with goal 1000 and nothing collected: it comes first
      and shows 0%. Edit it to 500 collected: it stays first and shows 50%.
      Delete it with confirmation: its id is gone. */
  lemma CreateFundDeleteScenario(s: seq<Project>, freshId: string, image: string, bank: BankAccount, toNumber: string -> real)
    requires StoreInvariant(s) && !HasId(s, freshId) && freshId != "" && image != ""
    requires toNumber("500") == 500.0
    ensures
      var data := ProjectData("t", "d", image, 1000.0, 0.0, bank);
      var out1 := SubmitForm(HandleAddNew(ListMode), data);
      var s1 := Perform(s, out1.call, freshId);
      var st2 := HandleEdit(out1.state, s1[0]);
      var out2 := SubmitForm(st2, ProjectForm.HandleChange(ProjectForm.Prefill(st2.projectToEdit), "currentAmount", "500", toNumber));
      var s2 := Perform(s1, out2.call, "unused");
      var out3 := HandleDelete(out2.state, s2[0], true);
      var s3 := Perform(s2, out3.call, "unused");
      && s1[0].id == freshId && s1[1..] == s && ProgressBar.Percentage(s1[0].currentAmount, s1[0].goal) == 0.0
      && |s2| == |s1| && s2[0].id == freshId && ProgressBar.Percentage(s2[0].currentAmount, s2[0].goal) == 50.0
      && !HasId(s3, freshId) && s3 == s
  {
    var data := ProjectData("t", "d", image, 1000.0, 0.0, bank);
    var out1 := SubmitForm(HandleAddNew(ListMode), data);
    var s1 := Perform(s, out1.call, freshId);
    var st2 := HandleEdit(out1.state, s1[0]);
    var form2 := ProjectForm.HandleChange(ProjectForm.Prefill(st2.projectToEdit), "currentAmount", "500", toNumber);
    ProjectForm.FieldNamedInvertsNameOf(ProjectForm.CurrentAmount);
    assert form2 == data.(currentAmount := 500.0);
    var out2 := SubmitForm(st2, form2);
    assert out2.call == Some(Update(freshId, form2));
    var s2 := Perform(s1, out2.call, "unused");
    DistinctCons(s1);
    assert s2[0] == WithId(form2, freshId);
    assert s2[1..] == s by {
      UpdateAbsentIsNoOp(s, freshId, form2);
      assert forall i :: 1 <= i < |s2| ==> s2[i] == s1[i];
    }
    ProgressBar.PercentageOfShare(1000.0, 50.0);
    var out3 := HandleDelete(out2.state, s2[0], true);
    assert s2 == [s2[0]] + s;
    DeleteAbsentIsNoOp(s, freshId);
  }
}

=== FILE: donation.dfy ===
/** The donation dialog (components/DonationModal.tsx): a two-step flow. In
    the amount step the donor picks a preset or types an amount, and a typed
    amount wins over the preset. Proceeding moves to the bank-transfer
    instructions only if that amount is a number above zero. In the
    instructions step the account name or number can be copied, and a single
    "copied" mark shows which one was copied last. */
module DonationModal {
  import opened Types

  datatype Step = AmountStep | InstructionsStep

  datatype CopyTarget = CopiedName | CopiedNumber

  /** The dialog's five state fields. */
  datatype ModalState = ModalState(
    amount: real,
    customAmount: string,
    error: string,
    step: Step,
    copiedValue: Option<CopyTarget>)

  const InitialAmount: real := 10000.0

  const Initial: ModalState := ModalState(InitialAmount, "", "", AmountStep, None)

  const Presets: seq<real> := [2500.0, 5000.0, 10000.0, 25000.0]

  const InvalidAmountMessage: string := "الرجاء إدخال مبلغ صحيح."

  /** The amount the donor will transfer: the typed entry, parsed, when there
      is one, else the selected preset. `parse` stands for `parseFloat`; None
      is NaN. */
  function FinalAmount(st: ModalState, parse: string -> Option<real>): Option<real> {
    if st.customAmount != "" then parse(st.customAmount) else Some(st.amount)
  }

  /** Not NaN and above zero. */
  predicate Acceptable(x: Option<real>) {
    x.Some? && x.value > 0.0
  }

  /** `handleProceed` */
  function HandleProceed(st: ModalState, parse: string -> Option<real>): (r: ModalState)
    ensures Acceptable(FinalAmount(st, parse)) <==> r.error == ""
    ensures Acceptable(FinalAmount(st, parse)) ==> r.step == InstructionsStep
    ensures !Acceptable(FinalAmount(st, parse)) ==> r.step == st.step && r.error == InvalidAmountMessage
    ensures FinalAmount(r, parse) == FinalAmount(st, parse) && r.copiedValue == st.copiedValue
    ensures r.(error := st.error, step := st.step) == st
  {
    var finalAmount := FinalAmount(st, parse);
    if finalAmount.None? || finalAmount.value <= 0.0 then st.(error := InvalidAmountMessage)
    else st.(error := "", step := InstructionsStep)
  }

  /** `handleAmountClick`: the preset becomes the amount and the typed entry is cleared. */
  function HandleAmountClick(st: ModalState, preset: real): (r: ModalState)
    ensures forall parse :: FinalAmount(r, parse) == Some(preset)
    ensures r.step == st.step && r.error == st.error && r.copiedValue == st.copiedValue
  {
    st.(amount := preset, customAmount := "")
  }

  /** `handleCustomAmountChange`: a non-empty entry deselects the preset by
      zeroing it; an empty entry leaves the preset alone. */
  function HandleCustomAmountChange(st: ModalState, value: string): (r: ModalState)
    ensures r.customAmount == value
    ensures value != "" ==> r.amount == 0.0
    ensures value == "" ==> r.amount == st.amount
    ensures r.step == st.step && r.error == st.error && r.copiedValue == st.copiedValue
  {
    var st' := st.(customAmount := value);
    if value != "" then st'.(amount := 0.0) else st'
  }

  /** `handleClose`: back to the amount step (the parent is told to close too). */
  function HandleClose(st: ModalState): (r: ModalState)
    ensures r.step == AmountStep
    ensures r.amount == st.amount && r.customAmount == st.customAmount && r.error == st.error
    ensures r.(step := st.step) == st
  {
    st.(step := AmountStep)
  }

  /** The effect that runs when the parent's project becomes null: each of the
      five fields is set back to the value its state hook starts with. */
  function ResetOnNullProject(st: ModalState): (r: ModalState)
    ensures r == Initial
    ensures r.step == AmountStep && r.customAmount == "" && r.error == "" && r.copiedValue.None?
    ensures forall parse :: Acceptable(FinalAmount(r, parse))
  {
    ModalState(10000.0, "", "", AmountStep, None)
  }

  /** `handleCopy`, as far as the dialog's state goes: the one shared mark
      moves to the field just copied. */
  function HandleCopy(st: ModalState, target: CopyTarget): (r: ModalState)
    ensures r.copiedValue == Some(target)
    ensures r.(copiedValue := st.copiedValue) == st
  {
    st.(copiedValue := Some(target))
  }

  /** The two-second timer set by a copy firing. */
  function CopyTimeout(st: ModalState): (r: ModalState)
    ensures r.copiedValue.None?
    ensures r.(copiedValue := st.copiedValue) == st
  {
    st.(copiedValue := None)
  }

  predicate ShowsCopied(st: ModalState, target: CopyTarget) {
    st.copiedValue == Some(target)
  }

  // ---------------------------------------------------------------------
  // Properties of single steps
  // ---------------------------------------------------------------------

  /** A non-empty typed entry decides the amount, whatever preset was chosen. */
  lemma CustomEntryBeatsPreset(st: ModalState, value: string, parse: string -> Option<real>)
    requires value != ""
    ensures FinalAmount(HandleCustomAmountChange(st, value), parse) == parse(value)
  {
  }

  /** Every preset is positive, so proceeding right after choosing one succeeds. */
  lemma ProceedAfterPresetSucceeds(st: ModalState, k: nat, parse: string -> Option<real>)
    requires k < |Presets|
    ensures HandleProceed(HandleAmountClick(st, Presets[k]), parse).step == InstructionsStep
    ensures HandleProceed(HandleAmountClick(st, Presets[k]), parse).error == ""
  {
  }

  /** The dialog opens with a valid amount: proceeding at once succeeds. */
  lemma ProceedFromInitialSucceeds(parse: string -> Option<real>)
    ensures HandleProceed(Initial, parse).step == InstructionsStep
  {
  }

  /** Typing an entry and then erasing it leaves no amount at all: the preset
      was zeroed by the typing, so proceeding shows the error. */
  lemma ErasedEntryLeavesNoAmount(st: ModalState, value: string, parse: string -> Option<real>)
    requires value != "" && st.step == AmountStep
    ensures var r := HandleProceed(HandleCustomAmountChange(HandleCustomAmountChange(st, value), ""), parse);
      r.step == AmountStep && r.error == InvalidAmountMessage
  {
  }

  /** Copying one field takes the mark away from the other. */
  lemma CopyMovesTheMark(st: ModalState, first: CopyTarget, second: CopyTarget)
    requires first != second
    ensures !ShowsCopied(HandleCopy(HandleCopy(st, first), second), first)
    ensures ShowsCopied(HandleCopy(HandleCopy(st, first), second), second)
  {
  }

  // ---------------------------------------------------------------------
  // Whole runs of the dialog
  // ---------------------------------------------------------------------

  /** What the donor can do. Preset, typing and proceed exist only in the
      amount step; the copy buttons only in the instructions step. */
  datatype DonorEvent =
    | ChoosePreset(preset: real)
    | TypeAmount(value: string)
    | Proceed
    | Copy(target: CopyTarget)
    | CopyTimerFires
    | Close

  /** One donor event, applied only where its button is on screen. The
      instructions step is entered only by an accepted proceed, and once there
      the amount is frozen until the dialog closes. */
  function Dispatch(st: ModalState, e: DonorEvent, parse: string -> Option<real>): (r: ModalState)
    ensures e.Close? ==> r == Initial
    ensures st.step == AmountStep && r.step == InstructionsStep ==>
      e.Proceed? && Acceptable(FinalAmount(st, parse))
    ensures st.step == InstructionsStep && !e.Close? ==>
      r.step == InstructionsStep && FinalAmount(r, parse) == FinalAmount(st, parse) && r.error == st.error
    ensures st.step == AmountStep && e.Proceed? && Acceptable(FinalAmount(st, parse)) ==> r.step == InstructionsStep
    ensures st.step == AmountStep && (e.Copy? || e.CopyTimerFires?) ==> r.step == AmountStep && r.(copiedValue := st.copiedValue) == st
    ensures st.step == AmountStep && e.Copy? ==> r == st
  {
    match e
    case ChoosePreset(preset) =>
      if st.step == AmountStep && preset in Presets then HandleAmountClick(st, preset) else st
    case TypeAmount(value) =>
      if st.step == AmountStep then HandleCustomAmountChange(st, value) else st
    case Proceed =>
      if st.step == AmountStep then HandleProceed(st, parse) else st
    case Copy(target) =>
      if st.step == InstructionsStep then HandleCopy(st, target) else st
    case CopyTimerFires => CopyTimeout(st)
    case Close =>
      // The parent drops the project, which unmounts the dialog: the next
      // opening starts from the initial state.
      ResetOnNullProject(HandleClose(st))
  }

  /** The dialog after a run of donor events since it was opened. */
  function RunDialog(events: seq<DonorEvent>, parse: string -> Option<real>): ModalState {
    if events == [] then Initial
    else Dispatch(RunDialog(events[..|events| - 1], parse), events[|events| - 1], parse)
  }

  /** The dialog opens with a valid amount, so proceeding at once reaches the
      instructions. */
  lemma ProceedReachesInstructions(parse: string -> Option<real>)
    ensures RunDialog([Proceed], parse).step == InstructionsStep
    ensures RunDialog([Proceed], parse).error == ""
  {
    assert [Proceed][..0] == [];
  }

  /** The instructions never show an invalid amount: whenever the dialog is in
      the instructions step, the amount it displays is a number above zero and
      no error is shown. */
  lemma {:induction false} InstructionsShowAcceptableAmount(events: seq<DonorEvent>, parse: string -> Option<real>)
    ensures var st := RunDialog(events, parse);
      st.step == InstructionsStep ==> Acceptable(FinalAmount(st, parse)) && st.error == ""
  {
    if events != [] {
      InstructionsShowAcceptableAmount(events[..|events| - 1], parse);
    }
  }

  /** The copy mark is only ever shown on the instructions step. */
  lemma {:induction false} CopyMarkOnlyOnInstructions(events: seq<DonorEvent>, parse: string -> Option<real>)
    ensures var st := RunDialog(events, parse);
      st.copiedValue.Some? ==> st.step == InstructionsStep
  {
    if events != [] {
      CopyMarkOnlyOnInstructions(events[..|events| - 1], parse);
    }
  }
}

=== FILE: form.dfy ===
/** The create/edit form of the admin panel (components/ProjectForm.tsx): the
    form data it holds, the prefill or reset when the project to edit changes,
    per-field updates, the image picked from a file, and the ordered
    validation that alone decides what reaches the store. */
module ProjectForm {
  import opened Types

  const DefaultBankName: string := "بنك السودان (Bankak)"
  const DefaultGoal: real := 5000000.0

  /** The data of a new project before the admin types anything. */
  const BlankForm: ProjectData :=
    ProjectData("", "", "", DefaultGoal, 0.0, BankAccount(DefaultBankName, "", ""))

  // ---------------------------------------------------------------------
  // Prefill / reset
  // ---------------------------------------------------------------------

  /** The effect on `projectToEdit`: copy the project's six non-id fields when
      editing, reset to the blank form when creating. */
  function Prefill(projectToEdit: Option<Project>): (d: ProjectData)
    ensures projectToEdit.Some? ==> WithId(d, projectToEdit.value.id) == projectToEdit.value
    ensures projectToEdit.None? ==> d == BlankForm
  {
    match projectToEdit
    case Some(p) => WithIdDataOf(p); DataOf(p)
    case None => BlankForm
  }

  // ---------------------------------------------------------------------
  // Validation
  // ---------------------------------------------------------------------

  /** The four alerts, in the order they are checked. */
  datatype FormError = GoalNotPositive | NegativeAmount | AmountExceedsGoal | MissingImage

  /** Either an alert (and `onSubmit` is not called) or the call `onSubmit(data, id)`. */
  datatype SubmitOutcome = Rejected(error: FormError) | Submitted(data: ProjectData, id: Option<string>)

  /** `projectToEdit?.id` */
  function EditedId(projectToEdit: Option<Project>): Option<string> {
    match projectToEdit
    case Some(p) => Some(p.id)
    case None => None
  }

  /** `handleSubmit`: the first failing check wins. */
  function HandleSubmit(form: ProjectData, projectToEdit: Option<Project>): (r: SubmitOutcome)
    ensures r.Submitted? <==> ValidData(form)
    ensures r.Submitted? ==> r.data == form && r.id == EditedId(projectToEdit)
    ensures r == Rejected(GoalNotPositive) <==> form.goal <= 0.0
    ensures r == Rejected(NegativeAmount) <==> form.goal > 0.0 && form.currentAmount < 0.0
    ensures r == Rejected(AmountExceedsGoal) <==>
      form.goal > 0.0 && form.currentAmount >= 0.0 && form.currentAmount > form.goal
    ensures r == Rejected(MissingImage) <==>
      form.goal > 0.0 && 0.0 <= form.currentAmount <= form.goal && form.imageUrl == ""
  {
    if form.goal <= 0.0 then Rejected(GoalNotPositive)
    else if form.currentAmount < 0.0 then Rejected(NegativeAmount)
    else if form.currentAmount > form.goal then Rejected(AmountExceedsGoal)
    else if form.imageUrl == "" then Rejected(MissingImage)
    else Submitted(form, EditedId(projectToEdit))
  }

  /** The blank form passes every numeric check and is stopped only by the
      missing image. */
  lemma BlankFormNeedsOnlyAnImage(projectToEdit: Option<Project>)
    ensures HandleSubmit(BlankForm, projectToEdit) == Rejected(MissingImage)
    ensures HandleSubmit(BlankForm.(imageUrl := "x"), projectToEdit).Submitted?
  {
  }

  /** Opening a stored (valid) project for edit and saving it unchanged submits
      its own data under its own id. */
  lemma EditUnchangedResubmits(p: Project)
    requires ValidProject(p)
    ensures HandleSubmit(Prefill(Some(p)), Some(p)) == Submitted(DataOf(p), Some(p.id))
  {
  }

  // ---------------------------------------------------------------------
  // Field updates
  // ---------------------------------------------------------------------

  /** The form fields an input can be bound to. */
  datatype Field = Title | Description | ImageUrl | Goal | CurrentAmount | BankName | AccountName | AccountNumber

  /** A field's content: text, or a number for the two amount fields. */
  datatype FieldValue = Text(text: string) | Number(number: real)

  function Get(d: ProjectData, f: Field): FieldValue {
    match f
    case Title => Text(d.title)
    case Description => Text(d.description)
    case ImageUrl => Text(d.imageUrl)
    case Goal => Number(d.goal)
    case CurrentAmount => Number(d.currentAmount)
    case BankName => Text(d.bankAccount.bankName)
    case AccountName => Text(d.bankAccount.accountName)
    case AccountNumber => Text(d.bankAccount.accountNumber)
  }

  /** The `name` attribute an input bound to `f` carries. */
  function NameOf(f: Field): string {
    match f
    case Title => "title"
    case Description => "description"
    case ImageUrl => "imageUrl"
    case Goal => "goal"
    case CurrentAmount => "currentAmount"
    case BankName => "bankAccount.bankName"
    case AccountName => "bankAccount.accountName"
    case AccountNumber => "bankAccount.accountNumber"
  }

  const BankPrefix: string := "bankAccount."

  /** The text before the first dot. Of a name that starts with `bankAccount.`,
      `split('.')[1]` is this segment of the rest of the name. */
  function BeforeDot(s: string): (r: string)
    ensures r <= s && '.' !in r
    ensures |r| < |s| ==> s[|r|] == '.'
  {
    if s == [] || s[0] == '.' then [] else [s[0]] + BeforeDot(s[1..])
  }

  function BankFieldNamed(key: string): Option<Field> {
    if key == "bankName" then Some(BankName)
    else if key == "accountName" then Some(AccountName)
    else if key == "accountNumber" then Some(AccountNumber)
    else None
  }

  function TopFieldNamed(name: string): Option<Field> {
    if name == "title" then Some(Title)
    else if name == "description" then Some(Description)
    else if name == "imageUrl" then Some(ImageUrl)
    else if name == "goal" then Some(Goal)
    else if name == "currentAmount" then Some(CurrentAmount)
    else None
  }

  /** Which field an input `name` writes: a name starting with `bankAccount.`
      writes the bank field named by the segment after the first dot, any other
      name writes the top-level field of that name. None: a key the record
      type does not have. */
  function FieldNamed(name: string): Option<Field> {
    if BankPrefix <= name then BankFieldNamed(BeforeDot(name[|BankPrefix|..]))
    else TopFieldNamed(name)
  }

  /** A name selects a field only if it starts with that field's input name;
      outside the bank prefix it must be exactly that name. So an input
      writes nothing but the field it is bound to, or (with trailing
      segments after a bank key) the bank field its key names. */
  lemma FieldNamedMatchesInputName(name: string)
    ensures FieldNamed(name).Some? ==> NameOf(FieldNamed(name).value) <= name
    ensures FieldNamed(name).Some? && !(BankPrefix <= name) ==> NameOf(FieldNamed(name).value) == name
  {
    if BankPrefix <= name {
      var rest := name[|BankPrefix|..];
      assert name == BankPrefix + rest;
      BankKeyIsPrefix(rest);
    } else {
      TopFieldIsName(name);
    }
  }

  lemma BankKeyIsPrefix(rest: string)
    ensures var key := BeforeDot(rest);
      BankFieldNamed(key).Some? ==> NameOf(BankFieldNamed(key).value) <= BankPrefix + rest
  {
    var key := BeforeDot(rest);
    if BankFieldNamed(key).Some? {
      BankKeyName(key);
      PrefixExtends(BankPrefix, key, rest);
    }
  }

  lemma BankKeyName(key: string)
    requires BankFieldNamed(key).Some?
    ensures NameOf(BankFieldNamed(key).value) == BankPrefix + key
  {
    if key == "bankName" {
      assert NameOf(BankName) == BankPrefix + "bankName";
    } else if key == "accountName" {
      assert NameOf(AccountName) == BankPrefix + "accountName";
    } else {
      assert NameOf(AccountNumber) == BankPrefix + "accountNumber";
    }
  }

  lemma PrefixExtends(a: string, b: string, c: string)
    requires b <= c
    ensures a + b <= a + c
  {
    assert (a + c)[..|a + b|] == a + b;
  }

  lemma TopFieldIsName(name: string)
    ensures TopFieldNamed(name).Some? ==> NameOf(TopFieldNamed(name).value) == name
  {
  }

  lemma {:induction false} BeforeDotWithoutDot(s: string)
    requires '.' !in s
    ensures BeforeDot(s) == s
  {
    if s != [] {
      assert '.' !in s[1..] by {
        forall k | 0 <= k < |s[1..]|
          ensures s[1..][k] != '.'
        {
          assert s[1..][k] == s[k + 1];
        }
      }
      BeforeDotWithoutDot(s[1..]);
      assert s == [s[0]] + s[1..];
    }
  }

  /** A bank input's name is the prefix followed by the bank field's key. */
  lemma BankNameSplits(key: string)
    requires '.' !in key
    ensures FieldNamed(BankPrefix + key) == BankFieldNamed(key)
  {
    var name := BankPrefix + key;
    assert name[..|BankPrefix|] == BankPrefix;
    assert name[|BankPrefix|..] == key;
    BeforeDotWithoutDot(key);
  }

  /** Each field's input name leads back to that field. */
  lemma FieldNamedInvertsNameOf(f: Field)
    ensures FieldNamed(NameOf(f)) == Some(f)
  {
    match f
    case BankName =>
      assert NameOf(f) == BankPrefix + "bankName";
      BankNameSplits("bankName");
    case AccountName =>
      assert NameOf(f) == BankPrefix + "accountName";
      BankNameSplits("accountName");
    case AccountNumber =>
      assert NameOf(f) == BankPrefix + "accountNumber";
      BankNameSplits("accountNumber");
    case _ =>
      assert NameOf(f)[0] != BankPrefix[0] || |NameOf(f)| < |BankPrefix|;
  }

  /** Writes one field; the two amount fields take the number the text parses to. */
  function Set(d: ProjectData, f: Field, value: string, toNumber: string -> real): ProjectData {
    match f
    case Title => d.(title := value)
    case Description => d.(description := value)
    case ImageUrl => d.(imageUrl := value)
    case Goal => d.(goal := toNumber(value))
    case CurrentAmount => d.(currentAmount := toNumber(value))
    case BankName => d.(bankAccount := d.bankAccount.(bankName := value))
    case AccountName => d.(bankAccount := d.bankAccount.(accountName := value))
    case AccountNumber => d.(bankAccount := d.bankAccount.(accountNumber := value))
  }

  /** How an input's text is stored: the amounts as the number it parses to. */
  function Stored(f: Field, value: string, toNumber: string -> real): FieldValue {
    if f == Goal || f == CurrentAmount then Number(toNumber(value)) else Text(value)
  }

  /** `handleChange`: `toNumber` stands for `Number(...)`. */
  function HandleChange(form: ProjectData, name: string, value: string, toNumber: string -> real): (r: ProjectData)
    ensures FieldNamed(name).None? ==> r == form
    ensures FieldNamed(name).Some? ==> Get(r, FieldNamed(name).value) == Stored(FieldNamed(name).value, value, toNumber)
    ensures forall g :: FieldNamed(name) != Some(g) ==> Get(r, g) == Get(form, g)
  {
    match FieldNamed(name)
    case Some(f) => Set(form, f, value, toNumber)
    case None => form
  }

  /** A change through the input bound to `f` writes `f` (as a number for
      the amounts) and leaves every other field, bank fields included, as it was. */
  lemma ChangeTouchesOnlyItsField(form: ProjectData, f: Field, value: string, toNumber: string -> real)
    ensures var r := HandleChange(form, NameOf(f), value, toNumber);
      && Get(r, f) == Stored(f, value, toNumber)
      && forall g :: g != f ==> Get(r, g) == Get(form, g)
  {
    FieldNamedInvertsNameOf(f);
  }

  // ---------------------------------------------------------------------
  // Image from a file
  // ---------------------------------------------------------------------

  /** `handleFileChange`: with no file chosen nothing happens; otherwise, once
      the reader completes, its result becomes the image. The reader also
      completes when the read fails, and its result is then `null`; that
      case is `Some("")`, since `null` and the empty string are both falsy
      to the image check and to the preview. */
  function HandleFileChange(form: ProjectData, loaded: Option<string>): (r: ProjectData)
    ensures loaded.None? ==> r == form
    ensures loaded.Some? ==> Get(r, ImageUrl) == Text(loaded.value)
    ensures forall g :: g != ImageUrl ==> Get(r, g) == Get(form, g)
  {
    match loaded
    case Some(dataUrl) => form.(imageUrl := dataUrl)
    case None => form
  }

  /** A failed read wipes the image, after which the form cannot be
      submitted until another file is loaded. */
  lemma FailedReadBlocksSubmit(form: ProjectData, projectToEdit: Option<Project>)
    ensures !HandleSubmit(HandleFileChange(form, Some("")), projectToEdit).Submitted?
    ensures form.goal > 0.0 && 0.0 <= form.currentAmount <= form.goal ==>
      HandleSubmit(HandleFileChange(form, Some("")), projectToEdit) == Rejected(MissingImage)
  {
  }

  /** A successful load satisfies the image check: a form that passes the
      numeric checks is submitted, carrying the loaded image. */
  lemma LoadedImageSubmits(form: ProjectData, dataUrl: string, projectToEdit: Option<Project>)
    requires dataUrl != ""
    requires form.goal > 0.0 && 0.0 <= form.currentAmount <= form.goal
    ensures var r := HandleSubmit(HandleFileChange(form, Some(dataUrl)), projectToEdit);
      r.Submitted? && r.data.imageUrl == dataUrl && r.data.(imageUrl := form.imageUrl) == form
  {
  }
}

=== FILE: password.dfy ===
/** The admin gate (components/PasswordModal.tsx): the typed input is compared
    with a constant compiled into the page. A match reports success; anything
    else shows an error and clears the input, and the gate stays open for
    another try. There is no attempt counter, no lockout and no hashing. */
module PasswordModal {

  const AdminPassword: string := "Yahya2025"

  const WrongPasswordMessage: string := "كلمة المرور غير صحيحة. حاول مرة أخرى."

  /** The gate's two state fields: the input box and the error line. */
  datatype GateState = GateState(password: string, error: string)

  /** The state of a freshly opened gate. */
  const InitialGate: GateState := GateState("", "")

  /** The input box's `onChange`. */
  function TypePassword(g: GateState, input: string): (r: GateState)
    ensures r.password == input && r.error == g.error
  {
    g.(password := input)
  }

  /** The new gate state, and whether `onSuccess` was called. */
  datatype SubmitResult = SubmitResult(state: GateState, success: bool)

  /** `handleSubmit` */
  function HandleSubmit(g: GateState): (r: SubmitResult)
    ensures r.success <==> g.password == AdminPassword
    ensures r.success ==> r.state == GateState(g.password, "")
    ensures !r.success ==> r.state == GateState("", WrongPasswordMessage) && r.state.error != ""
  {
    if g.password == AdminPassword then
      SubmitResult(g.(error := ""), true)
    else
      SubmitResult(GateState("", WrongPasswordMessage), false)
  }

  /** An empty input never opens the gate, because the secret is not empty. */
  lemma EmptyInputNeverSucceeds(g: GateState)
    requires g.password == ""
    ensures !HandleSubmit(g).success
    ensures HandleSubmit(g).state.password == ""
  {
  }

  /** The outcome depends on the input alone: earlier failures leave no trace
      that could change it. */
  lemma OutcomeDependsOnlyOnInput(g1: GateState, g2: GateState)
    requires g1.password == g2.password
    ensures HandleSubmit(g1).success == HandleSubmit(g2).success
  {
  }

  /** Whatever state earlier attempts left the gate in, typing the secret and
      submitting succeeds: failures lock nothing. */
  lemma RetryAfterFailuresSucceeds(g: GateState)
    ensures HandleSubmit(TypePassword(g, AdminPassword)).success
  {
  }

  /** The gate after each of `attempts` was typed and submitted in turn; a
      run of wrong attempts always ends with an empty input and the error shown. */
  function SubmitEach(g: GateState, attempts: seq<string>): (r: GateState)
    ensures attempts != [] && (forall i :: 0 <= i < |attempts| ==> attempts[i] != AdminPassword) ==>
      r == GateState("", WrongPasswordMessage)
    decreases |attempts|
  {
    if attempts == [] then g
    else SubmitEach(HandleSubmit(TypePassword(g, attempts[0])).state, attempts[1..])
  }

  /** A run of wrong attempts leaves the gate showing the error with an empty
      input; typing the secret then opens it and clears that error. */
  lemma SecretAfterWrongAttempts(g: GateState, attempts: seq<string>)
    requires attempts != []
    requires forall i :: 0 <= i < |attempts| ==> attempts[i] != AdminPassword
    ensures SubmitEach(g, attempts).error == WrongPasswordMessage
    ensures HandleSubmit(TypePassword(SubmitEach(g, attempts), AdminPassword)) ==
      SubmitResult(GateState(AdminPassword, ""), true)
  {
  }
}

=== FILE: progress.dfy ===
/** The funding percentage a progress bar shows (components/ProgressBar.tsx):
    the collected amount as a share of the goal, capped at 100, and 0 for a
    goal that is not positive. */
module ProgressBar {

  function Min(a: real, b: real): real {
    if a <= b then a else b
  }

  /** `goal > 0 ? Math.min((current / goal) * 100, 100) : 0` */
  function Percentage(current: real, goal: real): (r: real)
    ensures r <= 100.0
    ensures goal <= 0.0 ==> r == 0.0
    ensures current >= 0.0 ==> r >= 0.0
    ensures current >= goal > 0.0 ==> r == 100.0
    ensures goal > 0.0 && 0.0 <= current <= goal ==> r * goal == current * 100.0
  {
    if goal > 0.0 then
      var ratio := current / goal;
      assert ratio * goal == current;
      assert current >= goal ==> ratio >= 1.0;
      Min(ratio * 100.0, 100.0)
    else 0.0
  }

  /** For a fixed positive goal, collecting more never shows less. */
  lemma PercentageMonotone(goal: real, c1: real, c2: real)
    requires goal > 0.0 && c1 <= c2
    ensures Percentage(c1, goal) <= Percentage(c2, goal)
  {
    assert c1 / goal <= c2 / goal by {
      assert c1 / goal * goal == c1 && c2 / goal * goal == c2;
    }
  }

  /** A project that has collected exactly `k` percent of its goal shows `k`. */
  lemma PercentageOfShare(goal: real, k: real)
    requires goal > 0.0 && 0.0 <= k <= 100.0
    ensures Percentage(goal * k / 100.0, goal) == k
  {
  }
}

=== FILE: store.dfy ===
/** The project store held by the application root (App.tsx): an ordered
    list of projects, newest first, changed only by add (prepend), update
    (replace by id) and delete (filter out by id). The id a new project gets
    comes from the clock in the site; here it is a parameter. */
module ProjectStore {
  import opened Types

  /** The four projects the site starts with (App.tsx:16-53), all sharing one bank account. */
  const DefaultBankAccount: BankAccount :=
    BankAccount("بنك السودان (Bankak)", "ياسمين الامين", "2268042")

  const InitialProjects: seq<Project> := [
    Project("1", "غذاء وماء طارئ للفاشر",
      "توفير إغاثة فورية في شكل طرود غذائية ومياه شرب نظيفة للأسر النازحة بسبب النزاع في الفاشر.",
      "https://images.unsplash.com/photo-1532629345422-7515f3d16bb6?q=80&w=400&h=300&fit=crop&ixlib=rb-4.0.3",
      25000000.0, 6250000.0, DefaultBankAccount),
    Project("2", "عيادات صحية متنقلة للأسر النازحة",
      "نشر وحدات طبية متنقلة لتقديم الخدمات الصحية الأساسية والتطعيمات ورعاية الأمومة لأولئك الذين لا يستطيعون الوصول إلى المستشفيات.",
      "https://images.unsplash.com/photo-1589943313659-a29d63635a82?q=80&w=400&h=300&fit=crop&ixlib=rb-4.0.3",
      37500000.0, 22500000.0, DefaultBankAccount),
    Project("3", "مستلزمات إيواء للسودان",
      "توزيع مستلزمات الإيواء الطارئة، بما في ذلك الخيام والبطانيات، لتوفير الأمان والكرامة للأسر التي فقدت منازلها.",
      "https://images.unsplash.com/photo-1619873215965-47963c633c14?q=80&w=400&h=300&fit=crop&ixlib=rb-4.0.3",
      15000000.0, 14000000.0, DefaultBankAccount),
    Project("4", "مشروع أمل",
      "توفير المواد التعليمية والدعم النفسي والاجتماعي للأطفال المتأثرين بالنزاع، للمساعدة في استعادة الشعور بالحياة الطبيعية وبناء مستقبل أكثر إشراقًا.",
      "https://images.unsplash.com/photo-1617823900734-7da565487779?q=80&w=400&h=300&fit=crop&ixlib=rb-4.0.3",
      20000000.0, 3750000.0, DefaultBankAccount)
  ]

  // ---------------------------------------------------------------------
  // Observations on a list of projects
  // ---------------------------------------------------------------------

  predicate HasId(s: seq<Project>, id: string) {
    exists i :: 0 <= i < |s| && s[i].id == id
  }

  /** The number of records carrying `id`. */
  function Count(s: seq<Project>, id: string): nat {
    if s == [] then 0
    else (if s[0].id == id then 1 else 0) + Count(s[1..], id)
  }

  predicate SameIds(a: seq<Project>, b: seq<Project>) {
    |a| == |b| && forall i :: 0 <= i < |a| ==> a[i].id == b[i].id
  }

  predicate DistinctIds(s: seq<Project>) {
    forall i, j :: 0 <= i < j < |s| ==> s[i].id != s[j].id
  }

  predicate AllValid(s: seq<Project>) {
    forall i :: 0 <= i < |s| ==> ValidProject(s[i])
  }

  /** What every reachable store satisfies: valid records with distinct ids. */
  predicate StoreInvariant(s: seq<Project>) {
    AllValid(s) && DistinctIds(s)
  }

  // ---------------------------------------------------------------------
  // The three store operations
  // ---------------------------------------------------------------------

  /** `addProject`: the new record, with the given id, goes in front of the old ones. */
  function AddProject(s: seq<Project>, data: ProjectData, id: string): (r: seq<Project>)
    ensures |r| == |s| + 1
    ensures r[0].id == id && DataOf(r[0]) == data
    ensures r[1..] == s
  {
    [WithId(data, id)] + s
  }

  /** `updateProject`: every record whose id matches becomes `{ id, ...data }`,
      every other record is left as it was, in place. */
  function UpdateProject(s: seq<Project>, id: string, data: ProjectData): (r: seq<Project>)
    ensures SameIds(r, s)
    ensures forall i :: 0 <= i < |s| && s[i].id == id ==> DataOf(r[i]) == data
    ensures forall i :: 0 <= i < |s| && s[i].id != id ==> r[i] == s[i]
  {
    if s == [] then []
    else (if s[0].id == id then [WithId(data, id)] else [s[0]]) + UpdateProject(s[1..], id, data)
  }

  /** `deleteProject`: keeps exactly the records whose id differs, in their order. */
  function DeleteProject(s: seq<Project>, id: string): (r: seq<Project>)
    ensures forall p :: p in r <==> p in s && p.id != id
    ensures |r| + Count(s, id) == |s|
  {
    if s == [] then []
    else if s[0].id != id then [s[0]] + DeleteProject(s[1..], id)
    else DeleteProject(s[1..], id)
  }

  // ---------------------------------------------------------------------
  // Properties of update
  // ---------------------------------------------------------------------

  /** An update of an id nobody carries is a silent no-op. */
  lemma UpdateAbsentIsNoOp(s: seq<Project>, id: string, data: ProjectData)
    requires !HasId(s, id)
    ensures UpdateProject(s, id, data) == s
  {
    var r := UpdateProject(s, id, data);
    assert forall i :: 0 <= i < |s| ==> r[i] == s[i];
  }

  /** Saving a record's own data under its own id changes nothing when ids are distinct. */
  lemma UpdateWithOwnDataIsNoOp(s: seq<Project>, k: nat)
    requires DistinctIds(s) && k < |s|
    ensures UpdateProject(s, s[k].id, DataOf(s[k])) == s
  {
    var r := UpdateProject(s, s[k].id, DataOf(s[k]));
    forall i | 0 <= i < |s|
      ensures r[i] == s[i]
    {
      if i == k {
        WithIdDataOf(s[k]);
        WithIdDataOf(r[k]);
      }
    }
  }

  // ---------------------------------------------------------------------
  // Properties of delete
  // ---------------------------------------------------------------------

  /** A non-empty list carries an id exactly when its head or its tail does. */
  lemma HasIdCons(s: seq<Project>, id: string)
    requires s != []
    ensures HasId(s, id) <==> s[0].id == id || HasId(s[1..], id)
  {
    if HasId(s[1..], id) {
      var i :| 0 <= i < |s[1..]| && s[1..][i].id == id;
      assert s[i + 1].id == id;
    }
    if HasId(s, id) && s[0].id != id {
      var i :| 0 <= i < |s| && s[i].id == id;
      assert s[1..][i - 1].id == id;
    }
  }

  /** Every id a list carries is carried by any list holding all its records. */
  lemma HasIdOfSubset(a: seq<Project>, b: seq<Project>, id: string)
    requires forall p :: p in a ==> p in b
    requires HasId(a, id)
    ensures HasId(b, id)
  {
    var i :| 0 <= i < |a| && a[i].id == id;
    assert a[i] in b;
    var k :| 0 <= k < |b| && b[k] == a[i];
  }

  lemma DistinctCons(s: seq<Project>)
    requires s != []
    ensures DistinctIds(s) <==> DistinctIds(s[1..]) && !HasId(s[1..], s[0].id)
  {
    var t := s[1..];
    if DistinctIds(s) {
      forall i, j | 0 <= i < j < |t|
        ensures t[i].id != t[j].id
      {
        assert t[i] == s[i + 1] && t[j] == s[j + 1];
      }
      forall i | 0 <= i < |t|
        ensures t[i].id != s[0].id
      {
        assert t[i] == s[i + 1];
      }
    }
    if DistinctIds(t) && !HasId(t, s[0].id) {
      forall i, j | 0 <= i < j < |s|
        ensures s[i].id != s[j].id
      {
        assert s[j] == t[j - 1];
        if i > 0 {
          assert s[i] == t[i - 1];
        }
      }
    }
  }

  lemma {:induction false} CountZeroIffAbsent(s: seq<Project>, id: string)
    ensures Count(s, id) == 0 <==> !HasId(s, id)
  {
    if s != [] {
      CountZeroIffAbsent(s[1..], id);
      HasIdCons(s, id);
    }
  }

  /** Deleting an id nobody carries is a silent no-op. */
  lemma {:induction false} DeleteAbsentIsNoOp(s: seq<Project>, id: string)
    requires !HasId(s, id)
    ensures DeleteProject(s, id) == s
  {
    if s != [] {
      HasIdCons(s, id);
      DeleteAbsentIsNoOp(s[1..], id);
      assert s == [s[0]] + s[1..];
    }
  }

  /** After a delete no record carries the id. */
  lemma DeleteRemovesId(s: seq<Project>, id: string)
    ensures !HasId(DeleteProject(s, id), id)
  {
    var r := DeleteProject(s, id);
    forall i | 0 <= i < |r|
      ensures r[i].id != id
    {
      assert r[i] in r;
    }
  }

  /** Deleting the same id twice is the same as deleting it once. */
  lemma DeleteIdempotent(s: seq<Project>, id: string)
    ensures DeleteProject(DeleteProject(s, id), id) == DeleteProject(s, id)
  {
    DeleteRemovesId(s, id);
    DeleteAbsentIsNoOp(DeleteProject(s, id), id);
  }

  /** Delete works on each part of a list separately: the kept records keep
      their relative order. */
  lemma {:induction false} DeleteDistributes(a: seq<Project>, b: seq<Project>, id: string)
    ensures DeleteProject(a + b, id) == DeleteProject(a, id) + DeleteProject(b, id)
  {
    if a == [] {
      assert a + b == b;
    } else {
      assert (a + b)[0] == a[0];
      assert (a + b)[1..] == a[1..] + b;
      DeleteDistributes(a[1..], b, id);
    }
  }

  /** With distinct ids a record is carried at most once. */
  lemma {:induction false} DistinctCountAtMostOne(s: seq<Project>, id: string)
    requires DistinctIds(s)
    ensures Count(s, id) == (if HasId(s, id) then 1 else 0)
  {
    CountZeroIffAbsent(s, id);
    if s != [] {
      DistinctCons(s);
      HasIdCons(s, id);
      DistinctCountAtMostOne(s[1..], id);
    }
  }

  /** In a store with distinct ids, deleting a present id removes exactly one record. */
  lemma DeletePresentShrinksByOne(s: seq<Project>, id: string)
    requires DistinctIds(s) && HasId(s, id)
    ensures |DeleteProject(s, id)| == |s| - 1
  {
    DistinctCountAtMostOne(s, id);
  }

  /** Delete undoes an add that used a fresh id. */
  lemma DeleteUndoesAdd(s: seq<Project>, data: ProjectData, id: string)
    requires !HasId(s, id)
    ensures DeleteProject(AddProject(s, data, id), id) == s
  {
    DeleteAbsentIsNoOp(s, id);
  }

  // ---------------------------------------------------------------------
  // The store invariant
  // ---------------------------------------------------------------------

  lemma InitialProjectsSatisfyInvariant()
    ensures StoreInvariant(InitialProjects)
    ensures |InitialProjects| == 4
  {
  }

  lemma AddKeepsInvariant(s: seq<Project>, data: ProjectData, id: string)
    requires StoreInvariant(s) && ValidData(data) && !HasId(s, id)
    ensures StoreInvariant(AddProject(s, data, id))
  {
    var r := AddProject(s, data, id);
    forall i, j | 0 <= i < j < |r|
      ensures r[i].id != r[j].id
    {
      if i == 0 {
        assert s[j - 1].id == r[j].id;
      } else {
        assert r[i] == s[i - 1] && r[j] == s[j - 1];
      }
    }
  }

  lemma UpdateKeepsInvariant(s: seq<Project>, id: string, data: ProjectData)
    requires StoreInvariant(s) && ValidData(data)
    ensures StoreInvariant(UpdateProject(s, id, data))
  {
    var r := UpdateProject(s, id, data);
    forall i | 0 <= i < |r|
      ensures ValidProject(r[i])
    {
      if s[i].id != id {
        assert r[i] == s[i];
      }
    }
  }

  lemma {:induction false} DeleteKeepsInvariant(s: seq<Project>, id: string)
    requires StoreInvariant(s)
    ensures StoreInvariant(DeleteProject(s, id))
  {
    if s != [] {
      var t := s[1..];
      DistinctCons(s);
      DeleteKeepsInvariant(t, id);
      var rt := DeleteProject(t, id);
      if s[0].id != id {
        var r := [s[0]] + rt;
        assert r[1..] == rt;
        DistinctCons(r);
        if HasId(rt, s[0].id) {
          HasIdOfSubset(rt, t, s[0].id);
        }
      }
    }
  }

  // ---------------------------------------------------------------------
  // Mutations as values: what the admin panel asks the store to do
  // ---------------------------------------------------------------------

  datatype Mutation =
    | Add(data: ProjectData)
    | Update(id: string, data: ProjectData)
    | Delete(id: string)

  /** Runs one mutation; `freshId` is the clock-derived id an add would use. */
  function Apply(s: seq<Project>, m: Mutation, freshId: string): (r: seq<Project>)
    ensures m.Add? ==> |r| == |s| + 1 && r[1..] == s && r[0] == WithId(m.data, freshId)
    ensures m.Update? ==> SameIds(r, s)
    ensures m.Update? ==> forall i :: 0 <= i < |s| && s[i].id == m.id ==> DataOf(r[i]) == m.data
    ensures m.Update? ==> forall i :: 0 <= i < |s| && s[i].id != m.id ==> r[i] == s[i]
    ensures m.Delete? ==> !HasId(r, m.id)
    ensures m.Delete? ==> forall p :: p in r <==> p in s && p.id != m.id
  {
    match m
    case Add(data) => AddProject(s, data, freshId)
    case Update(id, data) => UpdateProject(s, id, data)
    case Delete(id) => DeleteRemovesId(s, id); DeleteProject(s, id)
  }

  /** The mutation keeps the invariant whenever the data it carries is valid
      and an add gets an id not already in use. */
  predicate Admissible(s: seq<Project>, m: Mutation, freshId: string) {
    match m
    case Add(data) => ValidData(data) && !HasId(s, freshId)
    case Update(_, data) => ValidData(data)
    case Delete(_) => true
  }

  lemma ApplyKeepsInvariant(s: seq<Project>, m: Mutation, freshId: string)
    requires StoreInvariant(s) && Admissible(s, m, freshId)
    ensures StoreInvariant(Apply(s, m, freshId))
  {
    match m
    case Add(data) => AddKeepsInvariant(s, data, freshId);
    case Update(id, data) => UpdateKeepsInvariant(s, id, data);
    case Delete(id) => DeleteKeepsInvariant(s, id);
  }

  /** How the length of a store with distinct ids changes: +1 for an add,
      0 for an update, -1 for a delete of a present id and 0 for an absent one. */
  lemma ApplyLength(s: seq<Project>, m: Mutation, freshId: string)
    requires DistinctIds(s)
    ensures m.Add? ==> |Apply(s, m, freshId)| == |s| + 1
    ensures m.Update? ==> |Apply(s, m, freshId)| == |s|
    ensures m.Delete? && HasId(s, m.id) ==> |Apply(s, m, freshId)| == |s| - 1
    ensures m.Delete? && !HasId(s, m.id) ==> |Apply(s, m, freshId)| == |s|
  {
    if m.Delete? {
      DistinctCountAtMostOne(s, m.id);
    }
  }
}

=== FILE: types.dfy ===
/** The records of the donation site (types.ts): a relief project and the
    bank account it owns, plus the id-less project data that the admin form
    edits and that the store's add and update operations receive. */
module Types {

  /** `T | null` and `T | undefined` in the site's code. */
  datatype Option<T> = None | Some(value: T)

  datatype BankAccount = BankAccount(bankName: string, accountName: string, accountNumber: string)

  /** `Omit<Project, 'id'>`: every field of a project except its id. */
  datatype ProjectData = ProjectData(
    title: string,
    description: string,
    imageUrl: string,
    goal: real,
    currentAmount: real,
    bankAccount: BankAccount)

  datatype Project = Project(
    id: string,
    title: string,
    description: string,
    imageUrl: string,
    goal: real,
    currentAmount: real,
    bankAccount: BankAccount)

  /** The id-less part of a project. */
  function DataOf(p: Project): ProjectData {
    ProjectData(p.title, p.description, p.imageUrl, p.goal, p.currentAmount, p.bankAccount)
  }

  /** `{ id, ...data }`: a project made of the given id and exactly the fields of `data`. */
  function WithId(data: ProjectData, id: string): (p: Project)
    ensures p.id == id && DataOf(p) == data
  {
    Project(id, data.title, data.description, data.imageUrl, data.goal, data.currentAmount, data.bankAccount)
  }

  /** A project is determined by its id and its data: `DataOf` and `WithId` are inverse. */
  lemma WithIdDataOf(p: Project)
    ensures WithId(DataOf(p), p.id) == p
  {
  }

  /** What the form guarantees of every record it lets through: a positive
      goal, a collected amount between 0 and the goal, and an image. */
  predicate ValidData(d: ProjectData) {
    && d.goal > 0.0
    && 0.0 <= d.currentAmount <= d.goal
    && d.imageUrl != ""
  }

  predicate ValidProject(p: Project) {
    ValidData(DataOf(p))
  }
}

=== FILE: viewmode.dfy ===
/** The view-mode state machine of the application root (App.tsx): a public
    gallery and an admin panel, with the admin gate in between. The header's
    toggle leaves the admin panel directly, but from the public view it only
    opens the gate; the admin flag is set by the gate's success callback. */
module ViewMode {
  import opened PasswordModal

  datatype ViewState = ViewState(isAdminView: bool, isPasswordModalVisible: bool)

  const InitialView: ViewState := ViewState(false, false)

  /** `handleToggleView` */
  function HandleToggleView(v: ViewState): (r: ViewState)
    ensures !r.isAdminView
    ensures v.isAdminView ==> r.isPasswordModalVisible == v.isPasswordModalVisible
    ensures !v.isAdminView ==> r.isPasswordModalVisible
  {
    if v.isAdminView then v.(isAdminView := false)
    else v.(isPasswordModalVisible := true)
  }

  /** `handleLoginSuccess` */
  function HandleLoginSuccess(v: ViewState): (r: ViewState)
    ensures r.isAdminView && !r.isPasswordModalVisible
  {
    ViewState(true, false)
  }

  /** The gate's `onClose`: hides the gate and leaves the view as it was. */
  function ClosePasswordModal(v: ViewState): (r: ViewState)
    ensures !r.isPasswordModalVisible && r.isAdminView == v.isAdminView
  {
    v.(isPasswordModalVisible := false)
  }

  // ---------------------------------------------------------------------
  // Sessions: the view flags together with the gate while it is on screen
  // ---------------------------------------------------------------------

  /** The gate is mounted only while it is visible, so a hidden gate is
      always in its initial state. */
  datatype Session = Session(view: ViewState, gate: GateState)

  const InitialSession: Session := Session(InitialView, InitialGate)

  datatype UiEvent = ToggleView | TypeInGate(input: string) | SubmitGate | CloseGate

  /** One user action. Gate events do nothing while the gate is hidden; the
      gate's success callback is the login handler, its close callback hides
      it, and hiding it unmounts it. A step that turns the admin view on is
      a submit of the visible gate holding the secret. */
  function Step(s: Session, e: UiEvent): (r: Session)
    ensures !s.view.isAdminView && r.view.isAdminView ==>
      e == SubmitGate && s.view.isPasswordModalVisible && s.gate.password == AdminPassword
    ensures s.view.isPasswordModalVisible && !r.view.isPasswordModalVisible ==> r.gate == InitialGate
    ensures e == SubmitGate && s.view.isPasswordModalVisible && s.gate.password == AdminPassword ==>
      r.view.isAdminView && !r.view.isPasswordModalVisible
    ensures e == CloseGate ==> !r.view.isPasswordModalVisible && r.view.isAdminView == s.view.isAdminView
    ensures !s.view.isPasswordModalVisible && !e.ToggleView? ==> r == s
  {
    match e
    case ToggleView => Session(HandleToggleView(s.view), s.gate)
    case TypeInGate(input) =>
      if s.view.isPasswordModalVisible then Session(s.view, TypePassword(s.gate, input)) else s
    case SubmitGate =>
      if !s.view.isPasswordModalVisible then s
      else
        var out := HandleSubmit(s.gate);
        if out.success then Session(HandleLoginSuccess(s.view), InitialGate)
        else Session(s.view, out.state)
    case CloseGate =>
      if s.view.isPasswordModalVisible then Session(ClosePasswordModal(s.view), InitialGate) else s
  }

  /** The session after a whole run of user actions from a fresh page load. */
  function Run(events: seq<UiEvent>): Session {
    if events == [] then InitialSession
    else Step(Run(events[..|events| - 1]), events[|events| - 1])
  }

  /** From the admin panel the toggle returns to the public view; from the
      public view it only opens the gate and never grants admin. */
  lemma ToggleNeverGrantsAdmin(s: Session)
    ensures !Step(s, ToggleView).view.isAdminView
    ensures !s.view.isAdminView ==> Step(s, ToggleView).view.isPasswordModalVisible
  {
  }

  /** The admin panel is reached only by submitting the gate while its input
      holds the secret. */
  lemma {:induction false} AdminRequiresPassword(events: seq<UiEvent>)
    ensures Run(events).view.isAdminView ==>
      exists j :: 0 <= j < |events| && events[j] == SubmitGate && Run(events[..j]).gate.password == AdminPassword
  {
    if events != [] && Run(events).view.isAdminView {
      var n := |events| - 1;
      var prefix := events[..n];
      var before := Run(prefix);
      if before.view.isAdminView && events[n] != ToggleView {
        AdminRequiresPassword(prefix);
        var j :| 0 <= j < |prefix| && prefix[j] == SubmitGate && Run(prefix[..j]).gate.password == AdminPassword;
        assert prefix[..j] == events[..j];
        assert events[j] == SubmitGate;
      } else {
        assert events[n] == SubmitGate;
        assert events[..n] == prefix;
      }
    }
  }

  /** The secret does open the panel: from a fresh page, toggling, typing the
      secret and submitting reaches the admin view with the gate closed. */
  lemma SecretOpensPanel()
    ensures Run([ToggleView, TypeInGate(AdminPassword), SubmitGate]).view.isAdminView
    ensures !Run([ToggleView, TypeInGate(AdminPassword), SubmitGate]).view.isPasswordModalVisible
  {
    var events := [ToggleView, TypeInGate(AdminPassword), SubmitGate];
    assert events[..0] == [];
    assert events[..1] == [ToggleView];
    assert events[..2] == [ToggleView, TypeInGate(AdminPassword)];
    assert Run(events[..1]) == Session(ViewState(false, true), InitialGate);
    assert Run(events[..2]) == Session(ViewState(false, true), GateState(AdminPassword, ""));
  }

  /** A hidden gate is always fresh: each opening starts with an empty input
      and no error. */
  lemma {:induction false} HiddenGateIsFresh(events: seq<UiEvent>)
    ensures !Run(events).view.isPasswordModalVisible ==> Run(events).gate == InitialGate
  {
    if events != [] {
      HiddenGateIsFresh(events[..|events| - 1]);
    }
  }
}
